=== FILE: README.md ===
# TaskSync task pipeline and services, in Dafny

TaskSync is a small task tracker. A browser front end (`FrontEnd/script.js`)
keeps the task list in memory, filters and sorts it for display, counts it for
the statistics panel, and sends creates, edits and completion toggles to a
Spring back end. The back end stores tasks, employees and managers through
three services.

This project models two parts of that system. Both are pure functions over
immutable values.

- **The front-end pipeline.** This covers the normalisation of loaded
  records, the filter predicate, the three-tier display comparator and the
  sort, the statistics, the filter reset, the optimistic toggle with its
  rollback, and the create and edit drafts.
- **The back-end services.** `TaskService`, `EmployeeService` and
  `ManagerService` work over a repository modelled as a finite
  `map<int, Record>`. Each operation that can fail returns a `Result` whose
  error is `NotFound(entity, id)`.

Modules, one per file:

| module | concept |
|---|---|
| `Wrappers` | `Option` and `Result` |
| `Text` | ASCII lower-casing; JavaScript `trim` over the ECMAScript white-space and line-terminator set; substring search |
| `Sequences` | order-preserving selection, subsequences, counting |
| `Sorting` | insertion sort by an arbitrary total preorder |
| `TaskModel` | the front-end `Task`, the raw loaded record, normalisation |
| `TaskFilter` | filter criteria, the filter, the reset, statistics |
| `TaskSort` | the display comparator, its total-preorder proof, the sorted view |
| `TaskActions` | toggle with rollback; create and edit drafts |
| `Repository` | the not-found error, `findAll`, `findById`, `deleteById`, the key `save` writes to, "saved at key" |
| `TaskService`, `ManagerService`, `EmployeeService` | the three services |
| `TaskWire` | the request bodies and the loaded records, and what survives a round trip through the task service |
| `Scenarios` | a worked three-task example of the view and the statistics |

Modelling choices:

- Due dates are `Option<int>` day numbers, where `None` is `null`.
- `createdAt` is an opaque string. The clock reading used when it is missing is the parameter `now`.
- Lower-casing is ASCII only.
- How a toggle's update request ends is the parameter `outcome`. It is either rejected, or stored and followed by a reload. The reload either failed or returned a given list of records.
- A generated database id is the parameter `newId`. `save` uses it unless the body carries the id of a stored record, which it merges into that row (`Repository.SaveKey`). The identity column never hands out a stored key, so the "one row added" clause of each `Create` is stated for a `newId` no row has.
- Back-end ids are `Option<int>`, because a Java `Long` is `null` before the first save.
- One `Priority` enum serves both the front end and the back end.

## Model

| member | source | states |
|---|---|---|
| TaskModel.Normalize | tasksync-backend/FrontEnd/script.js:197-206 | the id is kept; every truthy field is kept and every falsy one gets its default (title "Untitled Task", description "", completed false, priority medium, no due date, category "", createdAt the clock); so the title is never empty |
| TaskModel.NormalizeIdempotent | tasksync-backend/FrontEnd/script.js:197-206 | normalising an already normalised task changes nothing |
| TaskModel.Load | tasksync-backend/FrontEnd/script.js:197-206 | the loaded list has one normalised task per record, in order, with the record's id and a non-empty title |
| TaskModel.Rank | tasksync-backend/FrontEnd/script.js:380 | the `priorityOrder` table: every priority has a rank from 1 to 3, and distinct priorities have distinct ranks (`TaskModel.RankInjective`) |
| TaskModel.RankInjective | tasksync-backend/FrontEnd/script.js:380 | the ranks high 3, medium 2, low 1 tell priorities apart exactly |
| Text.ToLower | tasksync-backend/FrontEnd/script.js:414 | lower-casing keeps the length, maps each character on its own and leaves no upper-case letter |
| Text.ToLowerIdempotent | tasksync-backend/FrontEnd/script.js:414 | lower-casing twice is lower-casing once |
| Text.Trim | tasksync-backend/FrontEnd/script.js:414 | trimming yields a string that neither starts nor ends with white space, and is empty exactly when the input is all white space |
| Text.TrimIsSlice | tasksync-backend/FrontEnd/script.js:414 | the trimmed string is a contiguous slice of the input, and only white space is cut off on either side |
| Text.TrimIdempotent | tasksync-backend/FrontEnd/script.js:558 | trimming a trimmed string changes nothing |
| Text.Contains | tasksync-backend/FrontEnd/script.js:421-423 | `includes` holds exactly when the pattern occurs at some position |
| TaskFilter.SearchTerm | tasksync-backend/FrontEnd/script.js:414 | the search term is empty exactly when the search box holds only white space |
| TaskFilter.SearchTermIsLowerCase | tasksync-backend/FrontEnd/script.js:414 | the search term has no upper-case letter |
| TaskFilter.MatchesSearch | tasksync-backend/FrontEnd/script.js:420-423 | the search part of the predicate; its meaning, an empty term or an occurrence of the term in the lower-cased title, description or category, is `TaskFilter.MatchesTermMeaning` |
| TaskFilter.MatchesStatus | tasksync-backend/FrontEnd/script.js:426-428 | the status drop-down: "all" keeps every task, "completed" the completed ones, "pending" the others; `TaskFilter.StatsMatchStatusViews` ties the two views to the statistics |
| TaskFilter.MatchesPriority | tasksync-backend/FrontEnd/script.js:431 | the priority drop-down: "all" keeps every task, otherwise only tasks of that priority |
| TaskFilter.Matches | tasksync-backend/FrontEnd/script.js:418-434 | a task is kept when it passes the search, status and priority parts together; `TaskFilter.Filter` states what the view then holds |
| TaskFilter.MatchesTermMeaning | tasksync-backend/FrontEnd/script.js:420-423 | a task matches a term exactly when the term is empty or occurs in the lower-cased title, description or category; the emptiness guards on description and category change nothing |
| TaskFilter.MatchesSearchMeaning | tasksync-backend/FrontEnd/script.js:414-423 | a task passes the search exactly when the box is blank or its term occurs in the lower-cased title, description or category |
| TaskFilter.Filter | tasksync-backend/FrontEnd/script.js:418-434 | every kept task matches the search, status and priority filters, and each task occurs in the result exactly as often as in the list if it matches and not at all otherwise |
| TaskFilter.FilterIsSubsequence | tasksync-backend/FrontEnd/script.js:418 | the filtered view keeps the original relative order |
| TaskFilter.ClearedCriteria | tasksync-backend/FrontEnd/script.js:452-454 | the reset sets the search to the empty string and both drop-downs to "all" |
| TaskFilter.ClearedFilterKeepsAll | tasksync-backend/FrontEnd/script.js:452-455 | after the reset the filter shows every task, in order |
| TaskFilter.ComputeStats | tasksync-backend/FrontEnd/script.js:146-148 | the total is the list length, and completed plus pending is the total |
| TaskFilter.CountCompleted | tasksync-backend/FrontEnd/script.js:147 | the completed count never exceeds the list length; it equals the size of the "completed" view (`TaskFilter.StatsMatchStatusViews`) and moves with a toggled flag (`TaskActions.CountAfterSetCompleted`) |
| TaskFilter.StatsMatchStatusViews | tasksync-backend/FrontEnd/script.js:146-148 | the completed and pending counts over the whole list are the sizes of the "completed" and "pending" views |
| Sorting.Sort | tasksync-backend/FrontEnd/script.js:373 | the sorted list is a permutation of its input |
| Sorting.SortIsSorted | tasksync-backend/FrontEnd/script.js:373-392 | under a total preorder every earlier element is related to every later one |
| TaskSort.Compare | tasksync-backend/FrontEnd/script.js:375-391 | the renderer's comparator: tasks that differ in completion put the pending one first; otherwise tasks that differ in priority put the higher rank first; it is zero only for tasks equal in both. The full three-tier meaning is `TaskSort.CompareMeansDisplayBefore`, and consistency under swapping is `TaskSort.CompareAntisymmetric` |
| TaskSort.Le | tasksync-backend/FrontEnd/script.js:373-392 | the order `sort` follows, the comparator at or below zero; it is a total preorder (`TaskSort.LeIsTotalPreorder`) and means the three-tier display order (`TaskSort.CompareMeansDisplayBefore`) |
| TaskSort.CompareMeansDisplayBefore | tasksync-backend/FrontEnd/script.js:375-391 | the comparator orders pending before completed, then higher rank first, then dated before undated and earlier date first |
| TaskSort.CompareAntisymmetric | tasksync-backend/FrontEnd/script.js:375-391 | swapping the arguments negates the comparator |
| TaskSort.LeTransitive | tasksync-backend/FrontEnd/script.js:375-391 | the comparator's order is transitive |
| TaskSort.LeIsTotalPreorder | tasksync-backend/FrontEnd/script.js:375-391 | the comparator is a total preorder |
| TaskSort.SortTasks | tasksync-backend/FrontEnd/script.js:373-392 | the sorted copy is a permutation of the filtered view, ordered pairwise by the comparator |
| TaskSort.SortedInDisplayOrder | tasksync-backend/FrontEnd/script.js:373-392 | every earlier task of the sorted copy comes before every later one by the three tiers |
| TaskSort.View | tasksync-backend/FrontEnd/script.js:373-394 | the rendered list holds exactly the matching tasks, with multiplicity, in comparator order |
| TaskActions.FirstIndexOf | tasksync-backend/FrontEnd/script.js:467 | `find` gives no task exactly when no id matches, and otherwise the first task with the id |
| TaskActions.SetCompleted | tasksync-backend/FrontEnd/script.js:475 | the task at that position takes the given flag and every other task and field stays, the same step serving the optimistic write and the rollback (script.js:484) |
| TaskActions.ToggleCompletion | tasksync-backend/FrontEnd/script.js:466-488 | an absent id changes nothing. Otherwise the optimistic list changes only that task's flag, to `completed`. After a rejected update only that flag differs from the original, and it is `!completed`. After a stored update the list is the normalised reload, or the optimistic list when the reload failed |
| TaskActions.RollbackRestoresIff | tasksync-backend/FrontEnd/script.js:484 | the rollback restores the list exactly when the task's flag was `!completed` beforehand |
| TaskActions.CountAfterSetCompleted | tasksync-backend/FrontEnd/script.js:147 | changing one flag moves the completed count by the difference of the flags |
| TaskActions.ToggleStats | tasksync-backend/FrontEnd/script.js:475-477 | right after the optimistic update the total is unchanged and the completed count moves towards the new flag |
| TaskActions.CreateDraft | tasksync-backend/FrontEnd/script.js:557-570 | a create fails exactly when the title is blank; otherwise the text fields are trimmed, priority and date are taken as given, and the task starts pending |
| TaskActions.EditDraft | tasksync-backend/FrontEnd/script.js:586-608 | an unknown id fails first; then a blank title fails; otherwise the original keeps its id, flag and createdAt and takes the trimmed form fields |
| TaskService.FindAll | tasksync-backend/src/main/java/com/tasksync/TaskService.java:16-18 | holds exactly the stored tasks |
| Repository.SaveKey | tasksync-backend/src/main/java/com/tasksync/TaskService.java:29 | `save` writes to the record's own id when a row with that id is stored, and otherwise to the newly generated id |
| Repository.FindById | tasksync-backend/src/main/java/com/tasksync/TaskService.java:20-23 | a lookup fails with the entity's NotFound exactly when the id is absent, and otherwise returns the stored record |
| TaskService.FindById | tasksync-backend/src/main/java/com/tasksync/TaskService.java:20-23 | fails with NotFound exactly when the id is absent, and otherwise returns the stored task |
| TaskService.Create | tasksync-backend/src/main/java/com/tasksync/TaskService.java:25-30 | the completion flag is stored as given. A body carrying a stored task's id is merged into that row: it takes every field except the creation time, which is not updatable, and no row is added. Any other body is saved under the generated id, and when that id is fresh exactly one row is added. No other entry changes |
| TaskService.Update | tasksync-backend/src/main/java/com/tasksync/TaskService.java:32-40 | an absent id fails with NotFound; otherwise title, description, completed, priority and category come from the details, id and createdAt stay, and only that key is written |
| TaskService.Delete | tasksync-backend/src/main/java/com/tasksync/TaskService.java:42-44 | removes only that id |
| TaskService.UpdateIdempotent | tasksync-backend/src/main/java/com/tasksync/TaskService.java:32-40 | updating twice with the same details is updating once |
| TaskService.OperationsKeepWellKeyed | tasksync-backend/src/main/java/com/tasksync/TaskService.java:25-44 | create, update and delete keep every record under its own id |
| TaskService.FindAfterCreateAndDelete | tasksync-backend/src/main/java/com/tasksync/TaskService.java:20-44 | a created task is found under the key it was saved to; a deleted one is not found |
| ManagerService.FindAll | tasksync-backend/src/main/java/com/tasksync/ManagerService.java:16 | holds exactly the stored managers |
| ManagerService.FindById | tasksync-backend/src/main/java/com/tasksync/ManagerService.java:18-21 | fails with NotFound exactly when the id is absent |
| ManagerService.Create | tasksync-backend/src/main/java/com/tasksync/ManagerService.java:23 | the manager is saved as given: merged into its row when the body carries a stored manager's id, which adds no row, and otherwise saved under the generated id, adding exactly one row when that id is fresh; no other entry changes |
| ManagerService.Update | tasksync-backend/src/main/java/com/tasksync/ManagerService.java:25-30 | an absent id fails with NotFound; otherwise only name and email change and every other field of the record stays; only that key is written |
| ManagerService.Delete | tasksync-backend/src/main/java/com/tasksync/ManagerService.java:32 | removes only that id |
| ManagerService.OperationsKeepWellKeyed | tasksync-backend/src/main/java/com/tasksync/ManagerService.java:23-32 | create, update and delete keep every manager under its own id, the invariant the employee service's linking lemmas rely on |
| ManagerService.UpdateUndo | tasksync-backend/src/main/java/com/tasksync/ManagerService.java:25-30 | updating back with the old record restores the store |
| ManagerService.FindAfterCreateAndDelete | tasksync-backend/src/main/java/com/tasksync/ManagerService.java:18-32 | a created manager is found under the key it was saved to; a deleted one is not found |
| EmployeeService.FindAll | tasksync-backend/src/main/java/com/tasksync/EmployeeService.java:18 | holds exactly the stored employees |
| EmployeeService.FindById | tasksync-backend/src/main/java/com/tasksync/EmployeeService.java:20-23 | fails with NotFound exactly when the id is absent |
| EmployeeService.RequestedManager | tasksync-backend/src/main/java/com/tasksync/EmployeeService.java:26 | a request names a manager exactly when it carries a manager reference whose id is not null, and then names that id |
| EmployeeService.Create | tasksync-backend/src/main/java/com/tasksync/EmployeeService.java:25-32 | fails with the manager's NotFound exactly when a named manager is absent, saving nothing; otherwise links the stored manager, or saves the employee as given when none is named. The record is merged into its row when the body carries a stored employee's id, which adds no row, and is otherwise saved under the generated id, adding exactly one row when that id is fresh |
| EmployeeService.CreateLinksNamedManager | tasksync-backend/src/main/java/com/tasksync/EmployeeService.java:26-29 | with managers stored under their own ids (kept by `ManagerService.OperationsKeepWellKeyed`), the link points at the id that was named, and the saved employee is in that manager's employee list |
| EmployeeService.Update | tasksync-backend/src/main/java/com/tasksync/EmployeeService.java:34-50 | an absent employee fails first; then an absent named manager fails; otherwise the six fields are copied, id stays, and the manager is re-linked or cleared |
| EmployeeService.UpdateWithoutManagerUnlinks | tasksync-backend/src/main/java/com/tasksync/EmployeeService.java:46-48 | an update naming no manager succeeds; afterwards no findByManager query returns the employee, and it is in no manager's derived employee list |
| EmployeeService.UpdateWithManagerLinks | tasksync-backend/src/main/java/com/tasksync/EmployeeService.java:42-45 | with managers stored under their own ids, a successful update naming a manager puts the employee in that manager's employee list |
| EmployeeService.EmployeesOf | tasksync-backend/src/main/java/com/tasksync/Manager.java:23-24 | a manager's employee list is the inverse side of the link: exactly the ids of the stored employees that findByManager returns for it |
| EmployeeService.Delete | tasksync-backend/src/main/java/com/tasksync/EmployeeService.java:52 | removes only that id |
| EmployeeService.FindAfterCreateAndDelete | tasksync-backend/src/main/java/com/tasksync/EmployeeService.java:20-52 | a created employee is found under the key it was saved to; a deleted one is not found |
| EmployeeService.FindByDepartment | tasksync-backend/src/main/java/com/tasksync/EmployeeRepository.java:7 | holds exactly the stored employees whose department equals the argument ignoring case |
| EmployeeService.FindByDepartmentIgnoresCase | tasksync-backend/src/main/java/com/tasksync/EmployeeService.java:54 | the query answer does not depend on the argument's case |
| EmployeeService.FindByPromotionEligibility | tasksync-backend/src/main/java/com/tasksync/EmployeeRepository.java:8 | holds exactly the stored employees with that eligibility |
| EmployeeService.EligibilitySplitsStore | tasksync-backend/src/main/java/com/tasksync/EmployeeService.java:56 | the eligible and ineligible answers are disjoint and together are every employee |
| EmployeeService.FindByPerformanceAtLeast | tasksync-backend/src/main/java/com/tasksync/EmployeeRepository.java:9 | holds exactly the stored employees with a rating of at least the threshold |
| EmployeeService.PerformanceQueryMonotone | tasksync-backend/src/main/java/com/tasksync/EmployeeService.java:58 | raising the threshold can only shrink the answer |
| EmployeeService.FindByManager | tasksync-backend/src/main/java/com/tasksync/EmployeeRepository.java:10 | holds exactly the stored employees linked to that manager id |
| TaskWire.CreateThenLoad | tasksync-backend/FrontEnd/script.js:557-573 | a valid create, saved and loaded back, gives the new id, the trimmed fields, the chosen priority and a pending flag; the due date comes back empty |
| TaskWire.EditThenLoad | tasksync-backend/FrontEnd/script.js:595-611 | a valid edit, saved and loaded back, gives the trimmed fields and priority and keeps the stored creation time; the due date comes back empty |
| TaskWire.ToggleReloadShowsFlag | tasksync-backend/FrontEnd/script.js:276 | when the reload after a stored toggle returns the stored record, the reloaded list shows that task with the new flag |
| TaskWire.TogglePersistsFlag | tasksync-backend/FrontEnd/script.js:480 | the toggle's update request stores the new flag and keeps the stored id and creation time |
| Scenarios.ScenarioDisplayOrder | tasksync-backend/FrontEnd/script.js:373-392 | with the filters cleared, a pending high task shows before a pending low one, which shows before a completed high one |
| Scenarios.ScenarioCompletedFilter | tasksync-backend/FrontEnd/script.js:426-428 | the "completed" filter shows only the completed task |
| Scenarios.ScenarioStats | tasksync-backend/FrontEnd/script.js:146-148 | the statistics of that list are 3 total, 1 completed and 2 pending |

## Left out

- Rendering, toasts, modals, keyboard handling, counter animation, debouncing and date formatting are presentation, timers or locale.
- The HTTP calls (`fetch` in `fetchTasks`, `createTask`, `updateTask` and `deleteTask`) are left out. A toggle's persist result is the parameter `outcome`, with three cases: rejected, stored with a failed reload, and stored with the reloaded records. A request body is a value (`TaskWire`).
- Overlapping asynchronous toggles are concurrency. Only a single toggle's success and failure transitions are modelled.
- The clock in normalisation (`new Date().toISOString()`) is the parameter `now`. The overdue check reads the clock and is not modelled.
- The Spring controllers, `GlobalExceptionHandler`, `HelloController` and the application entry point are wiring, and are not part of this model. The same holds for the `@Valid`/`@NotBlank`/`@Email` checks they trigger.
- JPA effects are left out, and so are Java `null` strings:
  - Generated ids are the parameter `newId`. A create body that carries an id no stored row has is saved under `newId`, as a merge of an unknown detached entity inserts a new row. Some Hibernate versions reject that case instead.
  - `@CreationTimestamp`/`@UpdateTimestamp` are not modelled; `createdAt` passes through and `updatedAt` is absent.
  - The manager's cascade and orphan removal (Manager.java:23) are not modelled. So deleting a manager does not delete its employees, and merging a manager body with an empty employee list does not remove them.
  - A missing string is not distinguished from an empty one in the back-end records.
- The JSON mapping between the back end's `LOW`/`MEDIUM`/`HIGH` and the front end's lower-case names is library behaviour. One shared enum is used.
- `findAll` and the employee queries return sets: the order of a database result is unspecified.
- Text.ToLower: lower-cases ASCII letters only. JavaScript's `toLowerCase` also maps non-ASCII letters.
- EmployeeService.FindByDepartment: compares departments with ASCII-only case folding (`Text.ToLower`). The database's case-insensitive comparison behind `findByDepartmentIgnoreCase` (EmployeeRepository.java:7) also folds non-ASCII letters.
- TaskModel.Normalize: the dueDate default is a pass-through, because a day number has no falsy value other than `null`. A present-but-empty date string is not modelled.
- TaskActions.ToggleCompletion: the records a reload returns are a parameter. They are not tied to the task store, because the list endpoint's order is unspecified. `TaskWire.ToggleReloadShowsFlag` relates the two for the toggled record.
- The manager's employee list (Manager.java:23-24) is not a stored field of the manager record. It is the inverse side of each employee's link, derived by `EmployeeService.EmployeesOf`, so manager operations cannot change it.
- TaskService.Delete: deleting an absent id is a no-op, which is the behaviour of current Spring Data repositories.

## Observations

- The back-end `Task` entity has no due-date field, so a due date set in the create or edit form does not survive a save and reload. `TaskWire.CreateThenLoad` and `TaskWire.EditThenLoad` prove that the date comes back empty.
- After a failed persist the toggle writes `!completed`, not the flag the task had before. `TaskActions.RollbackRestoresIff` shows this restores the list only when the prior flag was `!completed`. The checkbox handler (script.js:342) passes the box's new state, which is the negation of the rendered flag. So the rollback is exact when the rendered list was current, but not when a toggle is issued through the exported global with the task's current value.
- In `TaskService.create` the branch that sets a false flag to false changes nothing: the flag is stored as given (`TaskService.Create`).

=== FILE: employee_service.dfy ===
/**
 * The back end's employee service over map-backed employee and manager
 * repositories, including how an employee's manager reference is resolved.
 */
module EmployeeService {
  import opened Wrappers
  import opened Text
  import opened Repository
  import opened ManagerService

  /**
   * An employee's manager reference as the service sees it: only its id is
   * read (`None` is a reference whose id is `null`). A stored employee holds
   * the id of the manager it was linked to.
   */
  datatype ManagerLink = ManagerLink(id: Option<int>)

  /** The persisted employee entity. Dates are day numbers; the rating is a nullable integer. */
  datatype Employee = Employee(
    id: Option<int>,
    name: string,
    jobTitle: string,
    department: string,
    hireDate: Option<int>,
    performanceRating: Option<int>,
    promotionEligibility: bool,
    manager: Option<ManagerLink>)

  type EmployeeStore = map<int, Employee>

  /** The manager id a request names, if it names one (a reference with a `null` id names none). */
  function RequestedManager(e: Employee): (r: Option<int>)
    ensures r.Some? <==> e.manager.Some? && e.manager.value.id.Some?
    ensures r.Some? ==> r.value == e.manager.value.id.value
  {
    if e.manager.Some? && e.manager.value.id.Some? then e.manager.value.id else None
  }

  function FindAll(store: EmployeeStore): (r: set<Employee>)
    ensures forall k :: k in store ==> store[k] in r
    ensures forall x :: x in r ==> exists k :: k in store && store[k] == x
  {
    Repository.FindAll(store)
  }

  function FindById(store: EmployeeStore, id: int): (r: Result<Employee, NotFound>)
    ensures r.Failure? <==> id !in store
    ensures r.Failure? ==> r.error == NotFound(EmployeeEntity, id)
    ensures r.Success? ==> r.value == store[id]
  {
    Repository.FindById(store, EmployeeEntity, id)
  }

  /** Links an employee to the stored manager `m`: the reference takes the manager's id. */
  function LinkTo(m: Manager): ManagerLink {
    ManagerLink(m.id)
  }

  /**
   * Saves an employee. A reference naming a manager must resolve in
   * `managers`, or the call fails and nothing is saved; a resolved employee is
   * linked to the stored manager. Without a named manager the employee is
   * saved as given. A body carrying the id of a stored employee is merged into
   * that row and adds none; otherwise the employee is saved under the id the
   * database generates (`newId`), which adds exactly one row when `newId` is a
   * key no row has.
   */
  function Create(employees: EmployeeStore, managers: ManagerStore, e: Employee, newId: int)
    : (r: Result<(EmployeeStore, Employee), NotFound>)
    ensures r.Failure? <==> RequestedManager(e).Some? && RequestedManager(e).value !in managers
    ensures r.Failure? ==> r.error == NotFound(ManagerEntity, RequestedManager(e).value)
    ensures r.Success? && RequestedManager(e).None? ==> r.value.1 == e.(id := Some(SaveKey(employees, e.id, newId)))
    ensures r.Success? && RequestedManager(e).Some? ==>
      r.value.1 == e.(id := Some(SaveKey(employees, e.id, newId)), manager := Some(LinkTo(managers[RequestedManager(e).value])))
    ensures r.Success? && e.id.Some? && e.id.value in employees ==> r.value.0.Keys == employees.Keys
    ensures r.Success? && !(e.id.Some? && e.id.value in employees) && newId !in employees ==>
      r.value.0.Keys == employees.Keys + {newId}
    ensures r.Success? ==> SavedAt(r.value.0, employees, SaveKey(employees, e.id, newId), r.value.1)
  {
    var linked :-
      if e.manager.Some? && e.manager.value.id.Some? then
        var m :- ManagerService.FindById(managers, e.manager.value.id.value);
        Success(e.(manager := Some(LinkTo(m))))
      else
        Success(e);
    var k := SaveKey(employees, e.id, newId);
    var saved := linked.(id := Some(k));
    Success((employees[k := saved], saved))
  }

  /**
   * Overwrites name, department, job title, hire date, rating and eligibility
   * of employee `id` and re-resolves its manager: a named manager must exist,
   * no named manager clears the link. The employee is looked up first, the
   * manager second, and nothing is saved on either failure.
   */
  function Update(employees: EmployeeStore, managers: ManagerStore, id: int, details: Employee)
    : (r: Result<(EmployeeStore, Employee), NotFound>)
    ensures id !in employees ==> r == Failure(NotFound(EmployeeEntity, id))
    ensures id in employees ==>
      (r.Failure? <==> RequestedManager(details).Some? && RequestedManager(details).value !in managers)
    ensures id in employees && r.Failure? ==> r.error == NotFound(ManagerEntity, RequestedManager(details).value)
    ensures r.Success? ==>
      var (after, saved) := r.value;
      && saved.id == employees[id].id
      && saved.name == details.name
      && saved.department == details.department
      && saved.jobTitle == details.jobTitle
      && saved.hireDate == details.hireDate
      && saved.performanceRating == details.performanceRating
      && saved.promotionEligibility == details.promotionEligibility
      && (RequestedManager(details).None? ==> saved.manager.None?)
      && (RequestedManager(details).Some? ==> saved.manager == Some(LinkTo(managers[RequestedManager(details).value])))
      && after.Keys == employees.Keys
      && SavedAt(after, employees, id, saved)
  {
    var e :- FindById(employees, id);
    var copied := e.(
      name := details.name,
      department := details.department,
      jobTitle := details.jobTitle,
      hireDate := details.hireDate,
      performanceRating := details.performanceRating,
      promotionEligibility := details.promotionEligibility);
    var saved :-
      if details.manager.Some? && details.manager.value.id.Some? then
        var m :- ManagerService.FindById(managers, details.manager.value.id.value);
        Success(copied.(manager := Some(LinkTo(m))))
      else
        Success(copied.(manager := None));
    Success((employees[id := saved], saved))
  }

  /** Removes employee `id` and nothing else. */
  function Delete(store: EmployeeStore, id: int): (r: EmployeeStore)
    ensures r.Keys == store.Keys - {id}
    ensures forall k :: k in r ==> r[k] == store[k]
  {
    DeleteById(store, id)
  }

  /** With well-keyed managers, a resolved employee points at exactly the manager id it named. */
  lemma CreateLinksNamedManager(employees: EmployeeStore, managers: ManagerStore, e: Employee, newId: int)
    requires ManagerService.WellKeyed(managers)
    requires Create(employees, managers, e, newId).Success?
    requires RequestedManager(e).Some?
    ensures Create(employees, managers, e, newId).value.1.manager == Some(ManagerLink(RequestedManager(e)))
    ensures SaveKey(employees, e.id, newId) in EmployeesOf(Create(employees, managers, e, newId).value.0, RequestedManager(e).value)
  {
  }

  /** Employees in `department`, compared ignoring case. */
  function FindByDepartment(store: EmployeeStore, department: string): (r: set<Employee>)
    ensures forall x :: x in r <==> x in FindAll(store) && ToLower(x.department) == ToLower(department)
  {
    set k | k in store && ToLower(store[k].department) == ToLower(department) :: store[k]
  }

  /** The department query does not depend on the case of its argument. */
  lemma FindByDepartmentIgnoresCase(store: EmployeeStore, department: string)
    ensures FindByDepartment(store, ToLower(department)) == FindByDepartment(store, department)
  {
    ToLowerIdempotent(department);
  }

  function FindByPromotionEligibility(store: EmployeeStore, eligible: bool): (r: set<Employee>)
    ensures forall x :: x in r <==> x in FindAll(store) && x.promotionEligibility == eligible
  {
    set k | k in store && store[k].promotionEligibility == eligible :: store[k]
  }

  /** Eligible and ineligible employees split the whole store. */
  lemma EligibilitySplitsStore(store: EmployeeStore)
    ensures FindByPromotionEligibility(store, true) + FindByPromotionEligibility(store, false) == FindAll(store)
    ensures FindByPromotionEligibility(store, true) !! FindByPromotionEligibility(store, false)
  {
  }

  /** Employees rated at least `rating`; an employee without a rating never qualifies. */
  function FindByPerformanceAtLeast(store: EmployeeStore, rating: int): (r: set<Employee>)
    ensures forall x :: x in r <==> x in FindAll(store) && x.performanceRating.Some? && x.performanceRating.value >= rating
  {
    set k | k in store && store[k].performanceRating.Some? && store[k].performanceRating.value >= rating :: store[k]
  }

  /** Raising the threshold can only shrink the answer. */
  lemma PerformanceQueryMonotone(store: EmployeeStore, low: int, high: int)
    requires low <= high
    ensures FindByPerformanceAtLeast(store, high) <= FindByPerformanceAtLeast(store, low)
  {
  }

  /** Employees linked to manager `managerId`. */
  function FindByManager(store: EmployeeStore, managerId: int): (r: set<Employee>)
    ensures forall x :: x in r <==> x in FindAll(store) && x.manager == Some(ManagerLink(Some(managerId)))
  {
    set k | k in store && store[k].manager == Some(ManagerLink(Some(managerId))) :: store[k]
  }

  /**
   * A manager's employee list: the ids of the stored employees linked to it.
   * It is the inverse side of the link, so it always agrees with `FindByManager`.
   */
  function EmployeesOf(store: EmployeeStore, managerId: int): (r: set<int>)
    ensures forall k :: k in r <==> k in store && store[k] in FindByManager(store, managerId)
  {
    set k | k in store && store[k].manager == Some(ManagerLink(Some(managerId)))
  }

  /**
   * Updating an employee without a named manager succeeds and takes it out of
   * every manager's employee list and every `findByManager` answer.
   */
  lemma UpdateWithoutManagerUnlinks(employees: EmployeeStore, managers: ManagerStore, id: int, details: Employee, mid: int)
    requires id in employees
    requires RequestedManager(details).None?
    ensures Update(employees, managers, id, details).Success?
    ensures Update(employees, managers, id, details).value.1 !in FindByManager(Update(employees, managers, id, details).value.0, mid)
    ensures id !in EmployeesOf(Update(employees, managers, id, details).value.0, mid)
  {
  }

  /** With well-keyed managers, an update naming manager `mid` puts the employee in that manager's list. */
  lemma UpdateWithManagerLinks(employees: EmployeeStore, managers: ManagerStore, id: int, details: Employee)
    requires ManagerService.WellKeyed(managers)
    requires Update(employees, managers, id, details).Success?
    requires RequestedManager(details).Some?
    ensures id in EmployeesOf(Update(employees, managers, id, details).value.0, RequestedManager(details).value)
  {
  }

  /** A created employee is found under the key it was saved to; a deleted one is not found. */
  lemma FindAfterCreateAndDelete(employees: EmployeeStore, managers: ManagerStore, e: Employee, newId: int, id: int)
    ensures Create(employees, managers, e, newId).Success? ==>
      FindById(Create(employees, managers, e, newId).value.0, SaveKey(employees, e.id, newId)) == Success(Create(employees, managers, e, newId).value.1)
    ensures FindById(Delete(employees, id), id) == Failure(NotFound(EmployeeEntity, id))
  {
  }
}

=== FILE: manager_service.dfy ===
/** The back end's manager service over a map-backed manager repository. */
module ManagerService {
  import opened Wrappers
  import opened Repository

  /**
   * The persisted manager entity. Its employee list is the inverse side of
   * each employee's manager link, so it is not stored here: it is derived from
   * the employee store (`EmployeeService.EmployeesOf`).
   */
  datatype Manager = Manager(id: Option<int>, name: string, email: string)

  type ManagerStore = map<int, Manager>

  function FindAll(store: ManagerStore): (r: set<Manager>)
    ensures forall k :: k in store ==> store[k] in r
    ensures forall x :: x in r ==> exists k :: k in store && store[k] == x
  {
    Repository.FindAll(store)
  }

  function FindById(store: ManagerStore, id: int): (r: Result<Manager, NotFound>)
    ensures r.Failure? <==> id !in store
    ensures r.Failure? ==> r.error == NotFound(ManagerEntity, id)
    ensures r.Success? ==> r.value == store[id]
  {
    Repository.FindById(store, ManagerEntity, id)
  }

  /**
   * Saves the manager as given. A body carrying the id of a stored manager is
   * merged into that row and adds none; otherwise the manager is saved under
   * the id the database generates (`newId`), which adds exactly one row when
   * `newId` is a key no row has.
   */
  function Create(store: ManagerStore, manager: Manager, newId: int): (r: (ManagerStore, Manager))
    ensures var k := SaveKey(store, manager.id, newId);
      && r.1 == manager.(id := Some(k))
      && (manager.id.Some? && manager.id.value in store ==> r.0.Keys == store.Keys)
      && (!(manager.id.Some? && manager.id.value in store) && newId !in store ==> r.0.Keys == store.Keys + {newId})
      && SavedAt(r.0, store, k, r.1)
  {
    var k := SaveKey(store, manager.id, newId);
    var saved := manager.(id := Some(k));
    (store[k := saved], saved)
  }

  /**
   * Overwrites name and email of manager `id`; every other field stays. The
   * employee store is not an input, so the manager's employees cannot change.
   * An unknown id fails before anything is saved.
   */
  function Update(store: ManagerStore, id: int, details: Manager): (r: Result<(ManagerStore, Manager), NotFound>)
    ensures r.Failure? <==> id !in store
    ensures r.Failure? ==> r.error == NotFound(ManagerEntity, id)
    ensures r.Success? ==>
      var (after, saved) := r.value;
      && saved.id == store[id].id
      && saved.(name := store[id].name, email := store[id].email) == store[id]
      && saved.name == details.name
      && saved.email == details.email
      && after.Keys == store.Keys
      && SavedAt(after, store, id, saved)
  {
    var m :- FindById(store, id);
    var saved := m.(name := details.name, email := details.email);
    Success((store[id := saved], saved))
  }

  /** Removes manager `id` and nothing else; the cascade to its employees is not modelled. */
  function Delete(store: ManagerStore, id: int): (r: ManagerStore)
    ensures r.Keys == store.Keys - {id}
    ensures forall k :: k in r ==> r[k] == store[k]
  {
    DeleteById(store, id)
  }

  /** Every manager sits under its own id. */
  ghost predicate WellKeyed(store: ManagerStore) {
    forall k :: k in store ==> store[k].id == Some(k)
  }

  /** Create, update and delete keep every manager under its own id. */
  lemma OperationsKeepWellKeyed(store: ManagerStore, manager: Manager, newId: int, id: int, details: Manager)
    requires WellKeyed(store)
    ensures WellKeyed(Create(store, manager, newId).0)
    ensures Update(store, id, details).Success? ==> WellKeyed(Update(store, id, details).value.0)
    ensures WellKeyed(Delete(store, id))
  {
  }

  /** An update is undone by updating again with the old name and email. */
  lemma UpdateUndo(store: ManagerStore, id: int, details: Manager)
    requires id in store
    ensures Update(Update(store, id, details).value.0, id, store[id]).value.0 == store
  {
    var after := Update(store, id, details).value.0;
    assert after[id := store[id]] == store;
  }

  /** A created manager is found under the key it was saved to; a deleted one is not found. */
  lemma FindAfterCreateAndDelete(store: ManagerStore, manager: Manager, newId: int, id: int)
    ensures FindById(Create(store, manager, newId).0, SaveKey(store, manager.id, newId)) == Success(Create(store, manager, newId).1)
    ensures FindById(Delete(store, id), id) == Failure(NotFound(ManagerEntity, id))
  {
  }
}

=== FILE: repository.dfy ===
/**
 * What the three services rely on from their Spring Data repositories: a
 * finite map from id to record, lookup by id, `findAll`, `deleteById`, and
 * the not-found error the services raise.
 */
module Repository {
  import opened Wrappers

  datatype Entity = TaskEntity | EmployeeEntity | ManagerEntity

  /** The `EntityNotFoundException` a service throws for an unknown id. */
  datatype NotFound = NotFound(entity: Entity, id: int)

  /** `findAll`: every stored record, in no particular order. */
  function FindAll<T>(store: map<int, T>): (r: set<T>)
    ensures forall k :: k in store ==> store[k] in r
    ensures forall x :: x in r ==> exists k :: k in store && store[k] == x
  {
    set k | k in store :: store[k]
  }

  /** `findById` followed by the service's `orElseThrow`: an unknown id is `NotFound` for `entity`. */
  function FindById<T>(store: map<int, T>, entity: Entity, id: int): (r: Result<T, NotFound>)
    ensures r.Failure? <==> id !in store
    ensures r.Failure? ==> r.error == NotFound(entity, id)
    ensures r.Success? ==> r.value == store[id]
  {
    if id in store then Success(store[id]) else Failure(NotFound(entity, id))
  }

  /**
   * The key `save` writes a record to: the record's own id when a row with
   * that id is stored (the record is merged into it), otherwise the id the
   * database generates for a new row (`newId`).
   */
  function SaveKey<T>(store: map<int, T>, id: Option<int>, newId: int): (k: int)
    ensures id.Some? && id.value in store ==> k == id.value
    ensures !(id.Some? && id.value in store) ==> k == newId
  {
    if id.Some? && id.value in store then id.value else newId
  }

  /** `deleteById`: removes `id` if present (an unknown id is not an error) and nothing else. */
  function DeleteById<T>(store: map<int, T>, id: int): (r: map<int, T>)
    ensures id !in r
    ensures r.Keys == store.Keys - {id}
    ensures forall k :: k in r ==> r[k] == store[k]
    ensures id !in store ==> r == store
  {
    store - {id}
  }

  /** `after` is `before` with `x` saved under key `k` and every other entry untouched. */
  ghost predicate SavedAt<T>(after: map<int, T>, before: map<int, T>, k: int, x: T) {
    && after.Keys == before.Keys + {k}
    && after[k] == x
    && forall j :: j in before && j != k ==> after[j] == before[j]
  }
}

=== FILE: scenarios.dfy ===
/**
 * Worked examples of the view pipeline on a three-task list: a pending
 * low-priority task, a pending high-priority task and a completed
 * high-priority task, none of them dated.
 */
module Scenarios {
  import opened Sequences
  import opened TaskModel
  import opened TaskFilter
  import opened TaskSort
  import opened Sorting

  ghost predicate SampleShape(t1: Task, t2: Task, t3: Task) {
    && !t1.completed && t1.priority == Low && t1.dueDate.None?
    && !t2.completed && t2.priority == High && t2.dueDate.None?
    && t3.completed && t3.priority == High && t3.dueDate.None?
  }

  lemma SortSample(t1: Task, t2: Task, t3: Task)
    requires SampleShape(t1, t2, t3)
    ensures SortTasks([t1, t2, t3]) == [t2, t1, t3]
  {
    LeIsTotalPreorder();
    assert Sort([t3], Le) == [t3];
    assert Sort([t2, t3], Le) == [t2, t3] by {
      assert [t2, t3][1..] == [t3];
      assert Le(t2, t3);
    }
    assert Insert(t1, [t3], Le) == [t1, t3] by {
      assert Le(t1, t3);
    }
    assert Insert(t1, [t2, t3], Le) == [t2, t1, t3] by {
      assert !Le(t1, t2);
      assert [t2, t3][1..] == [t3];
    }
    assert [t1, t2, t3][1..] == [t2, t3];
  }

  /** With the filters cleared the list shows the pending high task, then the pending low one, then the completed one. */
  lemma ScenarioDisplayOrder(t1: Task, t2: Task, t3: Task)
    requires SampleShape(t1, t2, t3)
    ensures View([t1, t2, t3], ClearedCriteria()) == [t2, t1, t3]
  {
    ClearedFilterKeepsAll([t1, t2, t3]);
    SortSample(t1, t2, t3);
  }

  /** Filtering on "completed" shows only the completed task. */
  lemma ScenarioCompletedFilter(t1: Task, t2: Task, t3: Task)
    requires SampleShape(t1, t2, t3)
    ensures View([t1, t2, t3], Criteria("", CompletedOnly, AnyPriority)) == [t3]
  {
    var c := Criteria("", CompletedOnly, AnyPriority);
    assert SearchTerm("") == [];
    var keep := Keep(c);
    assert !keep(t1) && !keep(t2) && keep(t3);
    assert [t1, t2, t3][1..] == [t2, t3];
    assert [t2, t3][1..] == [t3];
    assert Select([t3], keep) == [t3];
    assert Select([t2, t3], keep) == [t3];
    assert Filter([t1, t2, t3], c) == [t3];
    LeIsTotalPreorder();
    assert Sort([t3], Le) == [t3];
  }

  /** The statistics count the whole list whatever the filters show: three tasks, one completed, two pending. */
  lemma ScenarioStats(t1: Task, t2: Task, t3: Task)
    requires SampleShape(t1, t2, t3)
    ensures ComputeStats([t1, t2, t3]) == Stats(3, 1, 2)
  {
    assert [t1, t2, t3][1..] == [t2, t3];
    assert [t2, t3][1..] == [t3];
    assert CountCompleted([t3]) == 1;
    assert CountCompleted([t2, t3]) == 1;
  }
}

=== FILE: sequences.dfy ===
/** Order-preserving selection over sequences, independent of what is selected. */
module Sequences {

  /** `idx` lists, strictly increasing, the positions of `b` that `a` is made of. */
  ghost predicate Embeds<T>(idx: seq<int>, a: seq<T>, b: seq<T>) {
    && |idx| == |a|
    && (forall k :: 0 <= k < |idx| ==> 0 <= idx[k] < |b| && a[k] == b[idx[k]])
    && (forall k, l :: 0 <= k < l < |idx| ==> idx[k] < idx[l])
  }

  /** `a` is `b` with some elements left out and the rest in their original order. */
  ghost predicate IsSubsequence<T>(a: seq<T>, b: seq<T>) {
    exists idx :: Embeds(idx, a, b)
  }

  /** The elements of `s` that satisfy `keep`, in their original order (`Array.prototype.filter`). */
  function Select<T(!new)>(s: seq<T>, keep: T -> bool): (r: seq<T>)
    ensures |r| <= |s|
    ensures forall i :: 0 <= i < |r| ==> keep(r[i])
    ensures forall x :: multiset(r)[x] == if keep(x) then multiset(s)[x] else 0
  {
    if |s| == 0 then
      []
    else
      assert s == [s[0]] + s[1..];
      (if keep(s[0]) then [s[0]] else []) + Select(s[1..], keep)
  }

  function Shift(idx: seq<int>): (r: seq<int>)
    ensures |r| == |idx|
    ensures forall k :: 0 <= k < |idx| ==> r[k] == idx[k] + 1
  {
    seq(|idx|, k requires 0 <= k < |idx| => idx[k] + 1)
  }

  /** Skipping the head of `b` keeps an embedding, with every position moved up by one. */
  lemma EmbedsSkip<T>(idx: seq<int>, a: seq<T>, b: seq<T>)
    requires |b| > 0 && Embeds(idx, a, b[1..])
    ensures Embeds(Shift(idx), a, b)
  {
    var r := Shift(idx);
    forall k | 0 <= k < |r|
      ensures 0 <= r[k] < |b| && a[k] == b[r[k]]
    {
      assert b[1..][idx[k]] == b[r[k]];
    }
  }

  /** Keeping the head of `b` as well prepends position 0. */
  lemma EmbedsKeep<T>(idx: seq<int>, a: seq<T>, b: seq<T>)
    requires |b| > 0 && Embeds(idx, a, b[1..])
    ensures Embeds([0] + Shift(idx), [b[0]] + a, b)
  {
    EmbedsSkip(idx, a, b);
    var r := [0] + Shift(idx);
    var a' := [b[0]] + a;
    forall k | 0 <= k < |r|
      ensures 0 <= r[k] < |b| && a'[k] == b[r[k]]
    {
      if k > 0 {
        assert r[k] == Shift(idx)[k - 1] && a'[k] == a[k - 1];
      }
    }
    forall k, l | 0 <= k < l < |r|
      ensures r[k] < r[l]
    {
      assert r[l] == Shift(idx)[l - 1] >= 1;
      if k > 0 {
        assert r[k] == Shift(idx)[k - 1];
      }
    }
  }

  /** The positions `Select` keeps, as a witness of order preservation. */
  lemma {:induction false} SelectPositions<T(!new)>(s: seq<T>, keep: T -> bool) returns (idx: seq<int>)
    ensures Embeds(idx, Select(s, keep), s)
    decreases |s|
  {
    if |s| == 0 {
      idx := [];
    } else {
      var rest := SelectPositions(s[1..], keep);
      if keep(s[0]) {
        EmbedsKeep(rest, Select(s[1..], keep), s);
        idx := [0] + Shift(rest);
      } else {
        EmbedsSkip(rest, Select(s[1..], keep), s);
        idx := Shift(rest);
      }
    }
  }

  /** `Select` keeps the relative order of what it keeps. */
  lemma SelectIsSubsequence<T(!new)>(s: seq<T>, keep: T -> bool)
    ensures IsSubsequence(Select(s, keep), s)
  {
    var idx := SelectPositions(s, keep);
  }

  /** Selecting with a predicate that holds everywhere on `s` returns `s`. */
  lemma {:induction false} SelectAll<T(!new)>(s: seq<T>, keep: T -> bool)
    requires forall i :: 0 <= i < |s| ==> keep(s[i])
    ensures Select(s, keep) == s
  {
    if |s| > 0 {
      SelectAll(s[1..], keep);
    }
  }

  /** The number of elements of `s` satisfying `keep`. */
  function Count<T>(s: seq<T>, keep: T -> bool): (n: nat)
    ensures n <= |s|
  {
    if |s| == 0 then 0
    else (if keep(s[0]) then 1 else 0) + Count(s[1..], keep)
  }

  /** Counting is the size of the selection. */
  lemma {:induction false} CountIsSelectSize<T(!new)>(s: seq<T>, keep: T -> bool)
    ensures Count(s, keep) == |Select(s, keep)|
  {
    if |s| > 0 {
      CountIsSelectSize(s[1..], keep);
    }
  }

  /** The complement of a predicate. */
  function Not<T>(keep: T -> bool): T -> bool {
    x => !keep(x)
  }

  /** Elements failing `keep` and elements satisfying it add up to the whole sequence. */
  lemma {:induction false} CountComplement<T>(s: seq<T>, keep: T -> bool)
    ensures Count(s, keep) + Count(s, Not(keep)) == |s|
  {
    if |s| > 0 {
      CountComplement(s[1..], keep);
    }
  }

  /** Predicates that agree on every element of `s` count the same. */
  lemma {:induction false} CountCongruent<T>(s: seq<T>, p: T -> bool, q: T -> bool)
    requires forall i :: 0 <= i < |s| ==> p(s[i]) == q(s[i])
    ensures Count(s, p) == Count(s, q)
  {
    if |s| > 0 {
      CountCongruent(s[1..], p, q);
    }
  }

  /** Replacing one element moves the count by the difference of the two elements' verdicts. */
  lemma {:induction false} CountUpdate<T>(s: seq<T>, i: nat, x: T, keep: T -> bool)
    requires i < |s|
    ensures Count(s[i := x], keep) == Count(s, keep) - (if keep(s[i]) then 1 else 0) + (if keep(x) then 1 else 0)
  {
    var r := s[i := x];
    if i > 0 {
      CountUpdate(s[1..], i - 1, x, keep);
      assert r[1..] == s[1..][i - 1 := x];
    } else {
      assert r[1..] == s[1..];
    }
  }
}

=== FILE: sorting.dfy ===
/** Insertion sort by an arbitrary total preorder, on immutable sequences. */
module Sorting {

  /** `le` is reflexive, transitive and relates every pair one way or the other. */
  ghost predicate TotalPreorder<T(!new)>(le: (T, T) -> bool) {
    && (forall a :: le(a, a))
    && (forall a, b :: le(a, b) || le(b, a))
    && (forall a, b, c :: le(a, b) && le(b, c) ==> le(a, c))
  }

  /** Every earlier element is related to every later one. */
  ghost predicate SortedBy<T>(s: seq<T>, le: (T, T) -> bool) {
    forall i, j :: 0 <= i < j < |s| ==> le(s[i], s[j])
  }

  /** Inserts `x` in front of the first element it is related to. */
  function Insert<T>(x: T, s: seq<T>, le: (T, T) -> bool): (r: seq<T>)
    ensures multiset(r) == multiset(s) + multiset{x}
    ensures |r| == |s| + 1
    decreases |s|
  {
    if |s| == 0 then
      [x]
    else if le(x, s[0]) then
      [x] + s
    else
      assert s == [s[0]] + s[1..];
      [s[0]] + Insert(x, s[1..], le)
  }

  /** Prepending an element related to every element keeps a sequence sorted. */
  lemma PrependSorted<T>(x: T, s: seq<T>, le: (T, T) -> bool)
    requires SortedBy(s, le)
    requires forall k :: 0 <= k < |s| ==> le(x, s[k])
    ensures SortedBy([x] + s, le)
  {
    var r := [x] + s;
    forall i, j | 0 <= i < j < |r|
      ensures le(r[i], r[j])
    {
      assert r[j] == s[j - 1];
      if i > 0 {
        assert r[i] == s[i - 1];
      }
    }
  }

  lemma {:induction false} InsertSorted<T(!new)>(x: T, s: seq<T>, le: (T, T) -> bool)
    requires TotalPreorder(le)
    requires SortedBy(s, le)
    ensures SortedBy(Insert(x, s, le), le)
    decreases |s|
  {
    if |s| == 0 {
    } else if le(x, s[0]) {
      assert forall k :: 0 <= k < |s| ==> le(s[0], s[k]);
      PrependSorted(x, s, le);
    } else {
      var tail := Insert(x, s[1..], le);
      InsertSorted(x, s[1..], le);
      assert SortedBy(s[1..], le);
      forall k | 0 <= k < |tail|
        ensures le(s[0], tail[k])
      {
        var z := tail[k];
        assert z in multiset(tail);
        if z != x {
          assert z in multiset(s[1..]);
          var m :| 0 <= m < |s[1..]| && s[1..][m] == z;
          assert s[m + 1] == z;
        }
      }
      PrependSorted(s[0], tail, le);
    }
  }

  /** Sorts `s` by `le`: the result is a rearrangement of `s`; it is ordered when `le` is a total preorder (`SortIsSorted`). */
  function Sort<T>(s: seq<T>, le: (T, T) -> bool): (r: seq<T>)
    ensures multiset(r) == multiset(s)
    ensures |r| == |s|
  {
    if |s| == 0 then
      []
    else
      assert s == [s[0]] + s[1..];
      Insert(s[0], Sort(s[1..], le), le)
  }

  /** Under a total preorder, every earlier element of the sorted sequence is related to every later one. */
  lemma {:induction false} SortIsSorted<T(!new)>(s: seq<T>, le: (T, T) -> bool)
    requires TotalPreorder(le)
    ensures SortedBy(Sort(s, le), le)
  {
    if |s| > 0 {
      SortIsSorted(s[1..], le);
      InsertSorted(s[0], Sort(s[1..], le), le);
    }
  }
}

=== FILE: task_actions.dfy ===
/**
 * The state transitions the front end performs on its task list: the
 * optimistic completion toggle with its rollback, and the drafts the create
 * and edit forms submit.
 */
module TaskActions {
  import opened Wrappers
  import opened Text
  import opened TaskModel
  import opened TaskFilter
  import opened Sequences

  /** Position of the first task carrying `id` (`Array.prototype.find`). */
  function FirstIndexOf(tasks: seq<Task>, id: int): (r: Option<nat>)
    ensures r.None? <==> forall i :: 0 <= i < |tasks| ==> tasks[i].id != id
    ensures r.Some? ==> r.value < |tasks| && tasks[r.value].id == id
    ensures r.Some? ==> forall j :: 0 <= j < r.value ==> tasks[j].id != id
  {
    if |tasks| == 0 then
      None
    else if tasks[0].id == id then
      Some(0)
    else
      match FirstIndexOf(tasks[1..], id)
      case None => None
      case Some(k) => Some(k + 1)
  }

  /** `after` is `before` with only the `completed` flag of task `i` set to `c`. */
  ghost predicate OnlyCompletionChanged(after: seq<Task>, before: seq<Task>, i: int, c: bool) {
    && |after| == |before|
    && 0 <= i < |before|
    && after[i] == before[i].(completed := c)
    && forall j :: 0 <= j < |before| && j != i ==> after[j] == before[j]
  }

  function SetCompleted(tasks: seq<Task>, i: nat, c: bool): (r: seq<Task>)
    requires i < |tasks|
    ensures OnlyCompletionChanged(r, tasks, i, c)
  {
    tasks[i := tasks[i].(completed := c)]
  }

  /**
   * How the update request a toggle sends ends. `Rejected`: the request, or
   * reading its response, failed. `Saved(reload)`: the update was stored and
   * the list was then reloaded; `reload` holds the records the list endpoint
   * returned, or is `None` when that reload failed (its error is reported and
   * swallowed, so the list stays as it was).
   */
  datatype PersistOutcome = Rejected | Saved(reload: Option<seq<RawTask>>)

  /**
   * One completion toggle: `shown` is the list right after the optimistic
   * update, `settled` the list once the update request has finished.
   * `found` is false when no task carries the id (the "Task not found" toast).
   */
  datatype ToggleRun = ToggleRun(found: bool, shown: seq<Task>, settled: seq<Task>)

  /**
   * Toggles task `id` to `completed`. On a rejected update the flag is set to
   * `!completed`; on a stored update the list is whatever the reload brings
   * back, normalised with clock reading `now`.
   */
  function ToggleCompletion(tasks: seq<Task>, id: int, completed: bool, outcome: PersistOutcome, now: string): (r: ToggleRun)
    ensures r.found <==> exists i :: 0 <= i < |tasks| && tasks[i].id == id
    ensures !r.found ==> r.shown == tasks && r.settled == tasks
    ensures r.found ==>
      var i := FirstIndexOf(tasks, id).value;
      && OnlyCompletionChanged(r.shown, tasks, i, completed)
      && (outcome.Rejected? ==> OnlyCompletionChanged(r.settled, tasks, i, !completed))
      && (outcome == Saved(None) ==> r.settled == r.shown)
      && (outcome.Saved? && outcome.reload.Some? ==>
            |r.settled| == |outcome.reload.value|
            && forall k :: 0 <= k < |r.settled| ==> r.settled[k] == Normalize(outcome.reload.value[k], now))
  {
    match FirstIndexOf(tasks, id)
    case None => ToggleRun(false, tasks, tasks)
    case Some(i) =>
      var shown := SetCompleted(tasks, i, completed);
      var settled := (
        match outcome
        case Rejected => SetCompleted(shown, i, !completed)
        case Saved(None) => shown
        case Saved(Some(data)) => Load(data, now));
      ToggleRun(true, shown, settled)
  }

  /**
   * The rollback restores the list exactly when the task's flag was
   * `!completed` before the toggle; a toggle to the value the task already had
   * ends, after a failed persist, with the opposite value.
   */
  lemma RollbackRestoresIff(tasks: seq<Task>, id: int, completed: bool, now: string)
    requires exists i :: 0 <= i < |tasks| && tasks[i].id == id
    ensures var i := FirstIndexOf(tasks, id).value;
      ToggleCompletion(tasks, id, completed, Rejected, now).settled == tasks <==> tasks[i].completed == !completed
  {
    var i := FirstIndexOf(tasks, id).value;
    var r := ToggleCompletion(tasks, id, completed, Rejected, now);
    if r.settled == tasks {
      assert r.settled[i].completed == !completed;
    }
    if tasks[i].completed == !completed {
      assert r.settled == tasks by {
        assert r.settled[i] == tasks[i];
      }
    }
  }

  /** Changing one task's flag moves the completed count by the difference of the flags. */
  lemma CountAfterSetCompleted(tasks: seq<Task>, i: nat, c: bool)
    requires i < |tasks|
    ensures CountCompleted(SetCompleted(tasks, i, c))
      == CountCompleted(tasks) - (if tasks[i].completed then 1 else 0) + (if c then 1 else 0)
  {
    CountUpdate(tasks, i, tasks[i].(completed := c), IsCompleted);
  }

  /**
   * The statistics right after the optimistic update: the total is unchanged
   * and the completed count moves by at most one, towards the new flag.
   */
  lemma ToggleStats(tasks: seq<Task>, id: int, completed: bool, outcome: PersistOutcome, now: string)
    requires exists i :: 0 <= i < |tasks| && tasks[i].id == id
    ensures var i := FirstIndexOf(tasks, id).value;
      var before := ComputeStats(tasks);
      var after := ComputeStats(ToggleCompletion(tasks, id, completed, outcome, now).shown);
      && after.total == before.total
      && after.completed == before.completed - (if tasks[i].completed then 1 else 0) + (if completed then 1 else 0)
  {
    var i := FirstIndexOf(tasks, id).value;
    CountAfterSetCompleted(tasks, i, completed);
  }

  /** Why a form submission issues no request. */
  datatype FormError = TaskNotFound(id: int) | EmptyTitle

  /** The values of the create or edit form's fields. A cleared date input is `None`. */
  datatype Form = Form(title: string, description: string, priority: Priority, dueDate: Option<int>, category: string)

  /** The body the create form posts. */
  datatype Draft = Draft(title: string, description: string, priority: Priority, dueDate: Option<int>, category: string, completed: bool)

  /**
   * The create form's submission: text fields are trimmed and the task starts
   * pending; a blank title issues no request.
   */
  function CreateDraft(form: Form): (r: Result<Draft, FormError>)
    ensures r.Failure? <==> AllWhitespace(form.title)
    ensures r.Failure? ==> r.error == EmptyTitle
    ensures r.Success? ==>
      && r.value.title == Trim(form.title) && r.value.title != []
      && r.value.description == Trim(form.description)
      && r.value.category == Trim(form.category)
      && r.value.priority == form.priority
      && r.value.dueDate == form.dueDate
      && !r.value.completed
  {
    var d := Draft(Trim(form.title), Trim(form.description), form.priority, form.dueDate, Trim(form.category), false);
    if d.title == [] then Failure(EmptyTitle) else Success(d)
  }

  /**
   * The edit form's submission for task `id`: the original (the first task
   * with that id) keeps its id, completion flag and creation time; title,
   * description, priority, due date and category come from the form, trimmed.
   * An unknown id is reported before the title is checked.
   */
  function EditDraft(tasks: seq<Task>, id: int, form: Form): (r: Result<Task, FormError>)
    ensures (forall i :: 0 <= i < |tasks| ==> tasks[i].id != id) ==> r == Failure(TaskNotFound(id))
    ensures (exists i :: 0 <= i < |tasks| && tasks[i].id == id) ==>
      (r.Failure? <==> AllWhitespace(form.title)) && (r.Failure? ==> r.error == EmptyTitle)
    ensures r.Success? ==>
      var original := tasks[FirstIndexOf(tasks, id).value];
      && r.value.id == original.id
      && r.value.completed == original.completed
      && r.value.createdAt == original.createdAt
      && r.value.title == Trim(form.title) && r.value.title != []
      && r.value.description == Trim(form.description)
      && r.value.priority == form.priority
      && r.value.dueDate == form.dueDate
      && r.value.category == Trim(form.category)
  {
    match FirstIndexOf(tasks, id)
    case None => Failure(TaskNotFound(id))
    case Some(i) =>
      var edited := tasks[i].(
        title := Trim(form.title),
        description := Trim(form.description),
        priority := form.priority,
        dueDate := form.dueDate,
        category := Trim(form.category));
      if edited.title == [] then Failure(EmptyTitle) else Success(edited)
  }
}

=== FILE: task_filter.dfy ===
/**
 * The filter half of the view pipeline: the criteria the search box and the
 * two drop-downs hold, the per-task predicate, the filter itself, the reset,
 * and the statistics (which are always taken over the whole list).
 */
module TaskFilter {
  import opened Text
  import opened TaskModel
  import opened Sequences

  /** The status drop-down: `all`, `completed` or `pending`. */
  datatype StatusFilter = AnyStatus | CompletedOnly | PendingOnly

  /** The priority drop-down: `all`, or one priority. */
  datatype PriorityFilter = AnyPriority | OnlyPriority(p: Priority)

  /** The raw search-box text and the two drop-down values. */
  datatype Criteria = Criteria(search: string, status: StatusFilter, priority: PriorityFilter)

  /** The search term actually used: lower-cased, then trimmed. */
  function SearchTerm(search: string): (term: string)
    ensures term == [] <==> AllWhitespace(search)
  {
    ToLowerKeepsBlankness(search);
    Trim(ToLower(search))
  }

  /** The search term has no upper-case letter, so matching it against lower-cased fields ignores case. */
  lemma SearchTermIsLowerCase(search: string)
    ensures forall k :: 0 <= k < |SearchTerm(search)| ==> !IsUpper(SearchTerm(search)[k])
  {
    var lowered := ToLower(search);
    var term := Trim(lowered);
    var i := TrimIsSlice(lowered);
    assert forall k :: 0 <= k < |term| ==> term[k] == lowered[i + k];
  }

  /** The search part of the predicate: an empty term matches; otherwise title, description or category must contain it. */
  predicate MatchesSearch(t: Task, term: string) {
    term == []
    || Contains(ToLower(t.title), term)
    || (t.description != [] && Contains(ToLower(t.description), term))
    || (t.category != [] && Contains(ToLower(t.category), term))
  }

  predicate MatchesStatus(t: Task, f: StatusFilter) {
    match f
    case AnyStatus => true
    case CompletedOnly => t.completed
    case PendingOnly => !t.completed
  }

  predicate MatchesPriority(t: Task, f: PriorityFilter) {
    match f
    case AnyPriority => true
    case OnlyPriority(p) => t.priority == p
  }

  /** Whether the filter keeps `t`. */
  predicate Matches(t: Task, c: Criteria) {
    MatchesSearch(t, SearchTerm(c.search)) && MatchesStatus(t, c.status) && MatchesPriority(t, c.priority)
  }

  /** A non-empty term occurs nowhere in an empty field. */
  lemma NoOccurrenceInEmpty(field: string, term: string)
    requires field == [] && term != []
    ensures !exists i :: OccursAt(ToLower(field), term, i)
  {
    assert ToLower(field) == [];
  }

  /** The search part for a given term, as occurrence positions. */
  lemma MatchesTermMeaning(t: Task, term: string)
    ensures MatchesSearch(t, term) <==>
      (term == []
       || (exists i :: OccursAt(ToLower(t.title), term, i))
       || (exists i :: OccursAt(ToLower(t.description), term, i))
       || (exists i :: OccursAt(ToLower(t.category), term, i)))
  {
    if term != [] {
      if t.description == [] {
        NoOccurrenceInEmpty(t.description, term);
      }
      if t.category == [] {
        NoOccurrenceInEmpty(t.category, term);
      }
    }
  }

  /**
   * The search part, stated without the evaluation order of the source: the
   * search text is blank, or its term occurs at some position of the
   * lower-cased title, description or category.
   */
  lemma MatchesSearchMeaning(t: Task, c: Criteria)
    ensures MatchesSearch(t, SearchTerm(c.search)) <==>
      (AllWhitespace(c.search)
       || (exists i :: OccursAt(ToLower(t.title), SearchTerm(c.search), i))
       || (exists i :: OccursAt(ToLower(t.description), SearchTerm(c.search), i))
       || (exists i :: OccursAt(ToLower(t.category), SearchTerm(c.search), i)))
  {
    MatchesTermMeaning(t, SearchTerm(c.search));
  }

  /** The filter predicate as a value, for handing to the generic selection. */
  function Keep(c: Criteria): Task -> bool {
    t => Matches(t, c)
  }

  /** The filtered view: the tasks that match, in their original order. */
  function Filter(tasks: seq<Task>, c: Criteria): (r: seq<Task>)
    ensures |r| <= |tasks|
    ensures forall i :: 0 <= i < |r| ==> Matches(r[i], c)
    ensures forall t :: multiset(r)[t] == if Matches(t, c) then multiset(tasks)[t] else 0
  {
    Select(tasks, Keep(c))
  }

  /** The filter keeps the relative order of the tasks it keeps. */
  lemma FilterIsSubsequence(tasks: seq<Task>, c: Criteria)
    ensures IsSubsequence(Filter(tasks, c), tasks)
  {
    SelectIsSubsequence(tasks, Keep(c));
  }

  /** What the "clear filters" button resets the controls to. */
  function ClearedCriteria(): (c: Criteria)
    ensures c.search == [] && c.status == AnyStatus && c.priority == AnyPriority
  {
    Criteria("", AnyStatus, AnyPriority)
  }

  /** With a blank search and no priority filter, only the status drop-down decides. */
  lemma MatchesStatusOnly(t: Task, search: string, status: StatusFilter)
    requires AllWhitespace(search)
    ensures Matches(t, Criteria(search, status, AnyPriority)) <==> MatchesStatus(t, status)
  {
  }

  /** After clearing the filters every task is shown. */
  lemma ClearedFilterKeepsAll(tasks: seq<Task>)
    ensures Filter(tasks, ClearedCriteria()) == tasks
  {
    forall i | 0 <= i < |tasks|
      ensures Keep(ClearedCriteria())(tasks[i])
    {
      MatchesStatusOnly(tasks[i], "", AnyStatus);
      assert MatchesStatus(tasks[i], AnyStatus);
    }
    SelectAll(tasks, Keep(ClearedCriteria()));
  }

  /** The statistics panel. */
  datatype Stats = Stats(total: nat, completed: nat, pending: nat)

  predicate IsCompleted(t: Task) {
    t.completed
  }

  /** The number of completed tasks. */
  function CountCompleted(tasks: seq<Task>): (n: nat)
    ensures n <= |tasks|
  {
    Count(tasks, IsCompleted)
  }

  /** Totals taken over the whole list, whatever the filters show. */
  function ComputeStats(tasks: seq<Task>): (s: Stats)
    ensures s.total == |tasks|
    ensures s.completed <= s.total
    ensures s.completed + s.pending == s.total
  {
    var done := CountCompleted(tasks);
    Stats(|tasks|, done, |tasks| - done)
  }

  /**
   * The completed and pending counts are the sizes of the views the status
   * filter shows when nothing else is filtered.
   */
  lemma StatsMatchStatusViews(tasks: seq<Task>)
    ensures ComputeStats(tasks).completed == |Filter(tasks, Criteria("", CompletedOnly, AnyPriority))|
    ensures ComputeStats(tasks).pending == |Filter(tasks, Criteria("", PendingOnly, AnyPriority))|
  {
    CompletedView(tasks);
    PendingView(tasks);
  }

  lemma CompletedView(tasks: seq<Task>)
    ensures CountCompleted(tasks) == |Filter(tasks, Criteria("", CompletedOnly, AnyPriority))|
  {
    var c := Criteria("", CompletedOnly, AnyPriority);
    forall i | 0 <= i < |tasks|
      ensures IsCompleted(tasks[i]) == Keep(c)(tasks[i])
    {
      MatchesStatusOnly(tasks[i], "", CompletedOnly);
      assert MatchesStatus(tasks[i], CompletedOnly) == IsCompleted(tasks[i]);
    }
    CountCongruent(tasks, IsCompleted, Keep(c));
    CountIsSelectSize(tasks, Keep(c));
  }

  lemma PendingView(tasks: seq<Task>)
    ensures |tasks| - CountCompleted(tasks) == |Filter(tasks, Criteria("", PendingOnly, AnyPriority))|
  {
    var c := Criteria("", PendingOnly, AnyPriority);
    var pending := Not(IsCompleted);
    forall i | 0 <= i < |tasks|
      ensures pending(tasks[i]) == Keep(c)(tasks[i])
    {
      MatchesStatusOnly(tasks[i], "", PendingOnly);
      assert MatchesStatus(tasks[i], PendingOnly) == pending(tasks[i]);
    }
    CountComplement(tasks, IsCompleted);
    CountCongruent(tasks, pending, Keep(c));
    CountIsSelectSize(tasks, Keep(c));
  }
}

=== FILE: task_model.dfy ===
/**
 * The front end's task record and the normalisation it applies to every
 * record the back end returns when the list is loaded.
 */
module TaskModel {
  import opened Wrappers

  /** Task priority, shared by the front end (`low`/`medium`/`high`) and the back end (`LOW`/`MEDIUM`/`HIGH`). */
  datatype Priority = Low | Medium | High

  /** The display rank the list uses: high = 3, medium = 2, low = 1. */
  function Rank(p: Priority): (r: int)
    ensures 1 <= r <= 3
  {
    match p
    case High => 3
    case Medium => 2
    case Low => 1
  }

  /** Distinct priorities have distinct ranks, so rank order decides priority ties exactly. */
  lemma RankInjective(p: Priority, q: Priority)
    ensures Rank(p) == Rank(q) <==> p == q
  {
  }

  /**
   * A task as the front end keeps it after normalisation. Due dates are day
   * numbers (`None` is `null`); `createdAt` is an opaque timestamp string.
   */
  datatype Task = Task(
    id: int,
    title: string,
    description: string,
    completed: bool,
    priority: Priority,
    dueDate: Option<int>,
    category: string,
    createdAt: string)

  /**
   * A record exactly as it arrives from the back end: any field may be absent,
   * `null` or falsy. `None` stands for absent or `null`.
   */
  datatype RawTask = RawTask(
    id: int,
    title: Option<string>,
    description: Option<string>,
    completed: Option<bool>,
    priority: Option<Priority>,
    dueDate: Option<int>,
    category: Option<string>,
    createdAt: Option<string>)

  const UntitledTitle: string := "Untitled Task"

  /** JavaScript truthiness of an optional string: present and non-empty. */
  predicate Truthy(s: Option<string>) {
    s.Some? && s.value != []
  }

  /** `x || fallback` for an optional string. */
  function OrDefault(s: Option<string>, fallback: string): (r: string)
    ensures Truthy(s) ==> r == s.value
    ensures !Truthy(s) ==> r == fallback
  {
    if Truthy(s) then s.value else fallback
  }

  /**
   * The per-record defaulting of the load step: keeps the id, keeps every
   * truthy field and replaces every falsy one by its default. `now` is the
   * clock reading used when `createdAt` is missing.
   */
  function Normalize(raw: RawTask, now: string): (t: Task)
    ensures t.id == raw.id
    ensures t.title != []
    ensures Truthy(raw.title) ==> t.title == raw.title.value
    ensures !Truthy(raw.title) ==> t.title == UntitledTitle
    ensures t.description == OrDefault(raw.description, [])
    ensures t.completed <==> raw.completed == Some(true)
    ensures t.priority == raw.priority.GetOr(Medium)
    ensures t.dueDate == raw.dueDate
    ensures t.category == OrDefault(raw.category, [])
    ensures t.createdAt == OrDefault(raw.createdAt, now)
  {
    Task(
      raw.id,
      OrDefault(raw.title, UntitledTitle),
      OrDefault(raw.description, []),
      raw.completed == Some(true),
      raw.priority.GetOr(Medium),
      raw.dueDate,
      OrDefault(raw.category, []),
      OrDefault(raw.createdAt, now))
  }

  /** A normalised task written back out as a record with every field present. */
  function ToRaw(t: Task): RawTask {
    RawTask(t.id, Some(t.title), Some(t.description), Some(t.completed),
            Some(t.priority), t.dueDate, Some(t.category), Some(t.createdAt))
  }

  /** Normalising an already-normalised task changes nothing. */
  lemma NormalizeIdempotent(raw: RawTask, now: string)
    ensures Normalize(ToRaw(Normalize(raw, now)), now) == Normalize(raw, now)
  {
  }

  /** The load step: the whole list is replaced by the normalised records, in order. */
  function Load(data: seq<RawTask>, now: string): (tasks: seq<Task>)
    ensures |tasks| == |data|
    ensures forall i :: 0 <= i < |data| ==> tasks[i] == Normalize(data[i], now)
    ensures forall i :: 0 <= i < |tasks| ==> tasks[i].id == data[i].id && tasks[i].title != []
  {
    seq(|data|, i requires 0 <= i < |data| => Normalize(data[i], now))
  }
}

=== FILE: task_service.dfy ===
/** The back end's task service over a map-backed task repository. */
module TaskService {
  import opened Wrappers
  import opened TaskModel
  import opened Repository

  /**
   * The persisted task entity. It has no due date. `id` is `None` until the
   * record is first saved.
   */
  datatype TaskRecord = TaskRecord(
    id: Option<int>,
    title: string,
    description: string,
    completed: bool,
    priority: Priority,
    category: string,
    createdAt: Option<string>)

  type TaskStore = map<int, TaskRecord>

  /** Every record sits under its own id. */
  ghost predicate WellKeyed(store: TaskStore) {
    forall k :: k in store ==> store[k].id == Some(k)
  }

  function FindAll(store: TaskStore): (r: set<TaskRecord>)
    ensures forall k :: k in store ==> store[k] in r
    ensures forall x :: x in r ==> exists k :: k in store && store[k] == x
  {
    Repository.FindAll(store)
  }

  /** Looks a task up; an unknown id is `NotFound`. The store is not an output, so it cannot change. */
  function FindById(store: TaskStore, id: int): (r: Result<TaskRecord, NotFound>)
    ensures r.Failure? <==> id !in store
    ensures r.Failure? ==> r.error == NotFound(TaskEntity, id)
    ensures r.Success? ==> r.value == store[id]
  {
    Repository.FindById(store, TaskEntity, id)
  }

  /**
   * Saves `task`. A body without an id, or with one no row carries, is saved
   * under the id the database generates (`newId`), which adds exactly one row
   * when `newId` is a key no row has. A body carrying
   * the id of a stored task is merged into that row: every field is
   * overwritten except the creation time, which is not updatable. The
   * completion flag is stored as given: forcing a false flag to false changes
   * nothing.
   */
  function Create(store: TaskStore, task: TaskRecord, newId: int): (r: (TaskStore, TaskRecord))
    ensures var k := SaveKey(store, task.id, newId);
      var merged := task.id.Some? && task.id.value in store;
      && r.1.id == Some(k)
      && r.1.completed == task.completed
      && r.1.(id := task.id, createdAt := task.createdAt) == task
      && (merged ==> r.1.createdAt == store[k].createdAt && r.0.Keys == store.Keys)
      && (!merged ==> r.1.createdAt == task.createdAt)
      && (!merged && newId !in store ==> r.0.Keys == store.Keys + {newId})
      && SavedAt(r.0, store, k, r.1)
  {
    var t := if !task.completed then task.(completed := false) else task;
    var k := SaveKey(store, task.id, newId);
    var saved :=
      if task.id.Some? && task.id.value in store then t.(id := Some(k), createdAt := store[k].createdAt)
      else t.(id := Some(k));
    (store[k := saved], saved)
  }

  /**
   * Overwrites title, description, completion, priority and category of the
   * stored task `id` with those of `details`; the stored id and creation time
   * stay. An unknown id fails before anything is saved.
   */
  function Update(store: TaskStore, id: int, details: TaskRecord): (r: Result<(TaskStore, TaskRecord), NotFound>)
    ensures r.Failure? <==> id !in store
    ensures r.Failure? ==> r.error == NotFound(TaskEntity, id)
    ensures r.Success? ==>
      var (after, saved) := r.value;
      && saved.id == store[id].id
      && saved.createdAt == store[id].createdAt
      && saved.title == details.title
      && saved.description == details.description
      && saved.completed == details.completed
      && saved.priority == details.priority
      && saved.category == details.category
      && after.Keys == store.Keys
      && SavedAt(after, store, id, saved)
  {
    var task :- FindById(store, id);
    var saved := task.(
      title := details.title,
      description := details.description,
      completed := details.completed,
      priority := details.priority,
      category := details.category);
    Success((store[id := saved], saved))
  }

  /** Removes task `id`; other tasks stay, and an unknown id changes nothing. */
  function Delete(store: TaskStore, id: int): (r: TaskStore)
    ensures r.Keys == store.Keys - {id}
    ensures forall k :: k in r ==> r[k] == store[k]
  {
    DeleteById(store, id)
  }

  /** Applying the same update twice leaves the same store as applying it once. */
  lemma UpdateIdempotent(store: TaskStore, id: int, details: TaskRecord)
    requires id in store
    ensures Update(Update(store, id, details).value.0, id, details) == Update(store, id, details)
  {
    var (after, saved) := Update(store, id, details).value;
    assert after[id := saved] == after;
  }

  /** Create, update and delete keep every record under its own id. */
  lemma OperationsKeepWellKeyed(store: TaskStore, task: TaskRecord, newId: int, id: int, details: TaskRecord)
    requires WellKeyed(store)
    ensures WellKeyed(Create(store, task, newId).0)
    ensures Update(store, id, details).Success? ==> WellKeyed(Update(store, id, details).value.0)
    ensures WellKeyed(Delete(store, id))
  {
  }

  /** A created task is found under the key it was saved to; a deleted one is not found. */
  lemma FindAfterCreateAndDelete(store: TaskStore, task: TaskRecord, newId: int, id: int)
    ensures FindById(Create(store, task, newId).0, SaveKey(store, task.id, newId)) == Success(Create(store, task, newId).1)
    ensures FindById(Delete(store, id), id) == Failure(NotFound(TaskEntity, id))
  {
  }
}

=== FILE: task_sort.dfy ===
/**
 * The display order of the list: the three-tier comparator the renderer
 * hands to `Array.prototype.sort`, and a sort that orders a copy of the
 * filtered view by it.
 */
module TaskSort {
  import opened Wrappers
  import opened TaskModel
  import opened TaskFilter
  import opened Sorting

  /**
   * The renderer's comparator: negative when `a` is shown before `b`, positive
   * when after, zero when the display order does not separate them.
   */
  function Compare(a: Task, b: Task): (r: int)
    ensures a.completed != b.completed ==> (r < 0 <==> b.completed)
    ensures a.completed == b.completed && a.priority != b.priority ==> (r < 0 <==> Rank(a.priority) > Rank(b.priority))
    ensures r == 0 ==> a.completed == b.completed && a.priority == b.priority
  {
    if a.completed != b.completed then
      (if a.completed then 1 else 0) - (if b.completed then 1 else 0)
    else if Rank(b.priority) - Rank(a.priority) != 0 then
      Rank(b.priority) - Rank(a.priority)
    else if a.dueDate.Some? && b.dueDate.Some? then
      a.dueDate.value - b.dueDate.value
    else if a.dueDate.Some? then
      -1
    else if b.dueDate.Some? then
      1
    else
      0
  }

  /** `a` may be shown before `b`. */
  predicate Le(a: Task, b: Task) {
    Compare(a, b) <= 0
  }

  /** Due dates in display order: a dated task precedes an undated one, two dated ones by date. */
  predicate DueNoLater(x: Option<int>, y: Option<int>) {
    match (x, y)
    case (Some(d), Some(e)) => d <= e
    case (Some(_), None) => true
    case (None, Some(_)) => false
    case (None, None) => true
  }

  /**
   * The display order stated tier by tier: pending before completed; then
   * higher priority first; then by due date.
   */
  predicate DisplayBefore(a: Task, b: Task) {
    || (!a.completed && b.completed)
    || (a.completed == b.completed && Rank(a.priority) > Rank(b.priority))
    || (a.completed == b.completed && a.priority == b.priority && DueNoLater(a.dueDate, b.dueDate))
  }

  /** The comparator and the tiered description agree on every pair. */
  lemma CompareMeansDisplayBefore(a: Task, b: Task)
    ensures Le(a, b) <==> DisplayBefore(a, b)
  {
    RankInjective(a.priority, b.priority);
  }

  /** The comparator is consistent: swapping the arguments negates the answer. */
  lemma CompareAntisymmetric(a: Task, b: Task)
    ensures Compare(a, b) == -Compare(b, a)
  {
  }

  lemma LeReflexive(a: Task)
    ensures Le(a, a)
  {
  }

  lemma LeTotal(a: Task, b: Task)
    ensures Le(a, b) || Le(b, a)
  {
    CompareAntisymmetric(a, b);
  }

  lemma LeTransitive(a: Task, b: Task, c: Task)
    requires Le(a, b) && Le(b, c)
    ensures Le(a, c)
  {
    RankInjective(a.priority, b.priority);
    RankInjective(b.priority, c.priority);
  }

  /** `Le` is a total preorder, as `Array.prototype.sort` needs of a comparator. */
  lemma LeIsTotalPreorder()
    ensures TotalPreorder(Le)
  {
    forall a
      ensures Le(a, a)
    {
      LeReflexive(a);
    }
    forall a, b, c | Le(a, b) && Le(b, c)
      ensures Le(a, c)
    {
      LeTransitive(a, b, c);
    }
    forall a, b
      ensures Le(a, b) || Le(b, a)
    {
      LeTotal(a, b);
    }
  }

  /** Sorts a copy of `s` into display order; `s` itself is a value and is never changed. */
  function SortTasks(s: seq<Task>): (r: seq<Task>)
    ensures multiset(r) == multiset(s)
    ensures |r| == |s|
    ensures forall i, j :: 0 <= i < j < |r| ==> Le(r[i], r[j])
  {
    LeIsTotalPreorder();
    SortIsSorted(s, Le);
    Sort(s, Le)
  }

  /** In the sorted list every earlier task precedes every later one by the tiered display order. */
  lemma SortedInDisplayOrder(s: seq<Task>, i: int, j: int)
    requires 0 <= i < j < |s|
    ensures DisplayBefore(SortTasks(s)[i], SortTasks(s)[j])
  {
    CompareMeansDisplayBefore(SortTasks(s)[i], SortTasks(s)[j]);
  }

  /** The rendered list: the filtered view, sorted into display order. */
  function View(tasks: seq<Task>, c: Criteria): (r: seq<Task>)
    ensures forall i, j :: 0 <= i < j < |r| ==> Le(r[i], r[j])
    ensures forall t :: multiset(r)[t] == if Matches(t, c) then multiset(tasks)[t] else 0
  {
    SortTasks(Filter(tasks, c))
  }
}

=== FILE: task_wire.dfy ===
/**
 * The JSON boundary between the front end and the task service: the bodies
 * the forms send, the records the list loads back, and what survives a
 * round trip through the service.
 */
module TaskWire {
  import opened Wrappers
  import opened Text
  import opened TaskModel
  import opened TaskActions
  import TaskService

  /** The entity the service reads from a create body. It has no due-date field, so the date is dropped. */
  function CreateBody(d: Draft): (r: TaskService.TaskRecord)
    ensures r.id.None? && r.createdAt.None?
  {
    TaskService.TaskRecord(None, d.title, d.description, d.completed, d.priority, d.category, None)
  }

  /** The entity the service reads from an update body built from a front-end task. */
  function UpdateBody(t: Task): TaskService.TaskRecord {
    TaskService.TaskRecord(Some(t.id), t.title, t.description, t.completed, t.priority, t.category, Some(t.createdAt))
  }

  /** A stored record as the list endpoint returns it: every field present except the due date, which the entity lacks. */
  function Serialize(r: TaskService.TaskRecord): (raw: RawTask)
    requires r.id.Some?
    ensures raw.id == r.id.value && raw.dueDate.None?
  {
    RawTask(r.id.value, Some(r.title), Some(r.description), Some(r.completed), Some(r.priority), None, Some(r.category), r.createdAt)
  }

  /**
   * Creating a task from a valid form and loading it back yields the trimmed
   * title, description and category, the chosen priority, a pending flag and
   * the generated id; the due date comes back empty.
   */
  lemma CreateThenLoad(store: TaskService.TaskStore, form: Form, newId: int, now: string)
    requires CreateDraft(form).Success?
    ensures var saved := TaskService.Create(store, CreateBody(CreateDraft(form).value), newId).1;
      var t := Normalize(Serialize(saved), now);
      && t.id == newId
      && t.title == Trim(form.title)
      && t.description == Trim(form.description)
      && t.category == Trim(form.category)
      && t.priority == form.priority
      && !t.completed
      && t.dueDate.None?
  {
  }

  /**
   * Saving an edit and loading the task back yields the form's trimmed fields
   * and priority, keeps the completion flag and creation time the store had,
   * and drops the due date the form set.
   */
  lemma EditThenLoad(tasks: seq<Task>, store: TaskService.TaskStore, id: int, form: Form, now: string)
    requires EditDraft(tasks, id, form).Success?
    requires id in store && store[id].id == Some(id)
    ensures var saved := TaskService.Update(store, id, UpdateBody(EditDraft(tasks, id, form).value)).value.1;
      var original := tasks[FirstIndexOf(tasks, id).value];
      var t := Normalize(Serialize(saved), now);
      && t.id == id
      && t.title == Trim(form.title)
      && t.description == Trim(form.description)
      && t.category == Trim(form.category)
      && t.priority == form.priority
      && t.completed == original.completed
      && t.createdAt == OrDefault(store[id].createdAt, now)
      && t.dueDate.None?
  {
  }

  /** The request a toggle sends stores the new flag and leaves the stored id and creation time alone. */
  lemma TogglePersistsFlag(tasks: seq<Task>, store: TaskService.TaskStore, id: int, completed: bool, outcome: PersistOutcome, now: string)
    requires exists i :: 0 <= i < |tasks| && tasks[i].id == id
    requires id in store
    ensures var i := FirstIndexOf(tasks, id).value;
      var body := UpdateBody(ToggleCompletion(tasks, id, completed, outcome, now).shown[i]);
      var saved := TaskService.Update(store, id, body).value.1;
      && saved.completed == completed
      && saved.title == tasks[i].title
      && saved.id == store[id].id
      && saved.createdAt == store[id].createdAt
  {
  }

  /**
   * When the toggle's update (the task with the new flag) is stored and the
   * reload returns the stored record at position `k`, the reloaded list shows that task, at `k`, with
   * the new flag and the title it had.
   */
  lemma ToggleReloadShowsFlag(tasks: seq<Task>, store: TaskService.TaskStore, id: int, completed: bool,
                              served: seq<RawTask>, k: nat, now: string)
    requires exists i :: 0 <= i < |tasks| && tasks[i].id == id
    requires id in store && store[id].id == Some(id)
    requires k < |served|
    requires served[k] == Serialize(TaskService.Update(store, id,
      UpdateBody(tasks[FirstIndexOf(tasks, id).value].(completed := completed))).value.1)
    ensures var settled := ToggleCompletion(tasks, id, completed, Saved(Some(served)), now).settled;
      && k < |settled|
      && settled[k].id == id
      && settled[k].completed == completed
      && settled[k].title == OrDefault(Some(tasks[FirstIndexOf(tasks, id).value].title), UntitledTitle)
  {
  }
}

=== FILE: text.dfy ===
/**
 * The string primitives the task list uses: `String.prototype.trim`,
 * `String.prototype.toLowerCase` (ASCII letters only) and
 * `String.prototype.includes`.
 */
module Text {

  /** The code points ECMAScript classifies as WhiteSpace or LineTerminator; `trim` removes exactly these. */
  const Whitespace: set<char> := {
    '\t', '\n', '\U{B}', '\U{C}', '\r', ' ', '\U{A0}', '\U{1680}',
    '\U{2000}', '\U{2001}', '\U{2002}', '\U{2003}', '\U{2004}', '\U{2005}',
    '\U{2006}', '\U{2007}', '\U{2008}', '\U{2009}', '\U{200A}',
    '\U{2028}', '\U{2029}', '\U{202F}', '\U{205F}', '\U{3000}', '\U{FEFF}'
  }

  predicate IsWhitespace(c: char) {
    c in Whitespace
  }

  predicate AllWhitespace(s: string) {
    forall i :: 0 <= i < |s| ==> IsWhitespace(s[i])
  }

  predicate IsUpper(c: char) {
    'A' <= c <= 'Z'
  }

  /** Lower-cases one ASCII letter and leaves every other character alone. */
  function LowerChar(c: char): (r: char)
    ensures !IsUpper(r)
    ensures IsUpper(c) || r == c
    ensures IsUpper(c) ==> r as int == c as int + 32
  {
    if IsUpper(c) then (c as int + 32) as char else c
  }

  function ToLower(s: string): (r: string)
    ensures |r| == |s|
    ensures forall i :: 0 <= i < |s| ==> r[i] == LowerChar(s[i])
    ensures forall i :: 0 <= i < |r| ==> !IsUpper(r[i])
  {
    seq(|s|, i requires 0 <= i < |s| => LowerChar(s[i]))
  }

  /** Lower-casing twice is lower-casing once. */
  lemma ToLowerIdempotent(s: string)
    ensures ToLower(ToLower(s)) == ToLower(s)
  {
  }

  /** Lower-casing never touches whitespace, so a string is blank exactly when its lower-cased form is. */
  lemma ToLowerKeepsBlankness(s: string)
    ensures AllWhitespace(ToLower(s)) <==> AllWhitespace(s)
  {
    forall i | 0 <= i < |s|
      ensures IsWhitespace(ToLower(s)[i]) <==> IsWhitespace(s[i])
    {
      assert ToLower(s)[i] == LowerChar(s[i]);
    }
  }

  /** The index of the first non-whitespace character of `s` at or after `from` (`|s|` if there is none). */
  function SkipBlanks(s: string, from: nat): (n: nat)
    requires from <= |s|
    ensures from <= n <= |s|
    ensures forall i :: from <= i < n ==> IsWhitespace(s[i])
    ensures n == |s| || !IsWhitespace(s[n])
    decreases |s| - from
  {
    if from < |s| && IsWhitespace(s[from]) then SkipBlanks(s, from + 1) else from
  }

  /** The index just past the last non-whitespace character of `s[lo..upper]` (`lo` if there is none). */
  function SkipBlanksBack(s: string, lo: nat, upper: nat): (m: nat)
    requires lo <= upper <= |s|
    ensures lo <= m <= upper
    ensures forall i :: m <= i < upper ==> IsWhitespace(s[i])
    ensures m == lo || !IsWhitespace(s[m - 1])
    decreases upper
  {
    if lo < upper && IsWhitespace(s[upper - 1]) then SkipBlanksBack(s, lo, upper - 1) else upper
  }

  /**
   * `trim`: `s` without its leading and trailing whitespace. The result is a
   * slice of `s` that neither starts nor ends with whitespace, and it is empty
   * exactly when `s` is blank.
   */
  function Trim(s: string): (r: string)
    ensures |r| <= |s|
    ensures r == [] || (!IsWhitespace(r[0]) && !IsWhitespace(r[|r| - 1]))
    ensures r == [] <==> AllWhitespace(s)
  {
    var lo := SkipBlanks(s, 0);
    var hi := SkipBlanksBack(s, lo, |s|);
    assert lo < hi ==> s[lo..hi][0] == s[lo] && s[lo..hi][hi - lo - 1] == s[hi - 1];
    s[lo..hi]
  }

  /** `Trim(s)` is a slice of `s` with only whitespace cut off on either side. */
  lemma TrimIsSlice(s: string) returns (i: nat)
    ensures i + |Trim(s)| <= |s|
    ensures Trim(s) == s[i..i + |Trim(s)|]
    ensures AllWhitespace(s[..i]) && AllWhitespace(s[i + |Trim(s)|..])
  {
    i := SkipBlanks(s, 0);
    var hi := SkipBlanksBack(s, i, |s|);
    assert forall k :: 0 <= k < i ==> s[..i][k] == s[k];
    assert forall k :: 0 <= k < |s| - hi ==> s[hi..][k] == s[hi + k];
  }

  /** Trimming twice is trimming once. */
  lemma TrimIdempotent(s: string)
    ensures Trim(Trim(s)) == Trim(s)
  {
    var r := Trim(s);
    if r != [] {
      assert SkipBlanks(r, 0) == 0;
      assert SkipBlanksBack(r, 0, |r|) == |r|;
    }
  }

  /** `p` occurs in `s` starting at index `i`. */
  predicate OccursAt(s: string, p: string, i: int) {
    0 <= i && i + |p| <= |s| && s[i..i + |p|] == p
  }

  lemma OccursShift(s: string, p: string)
    requires |s| > 0 && !OccursAt(s, p, 0)
    ensures (exists i :: OccursAt(s[1..], p, i)) <==> (exists i :: OccursAt(s, p, i))
  {
    if exists i :: OccursAt(s[1..], p, i) {
      var i :| OccursAt(s[1..], p, i);
      assert s[1..][i..i + |p|] == s[i + 1..i + 1 + |p|];
      assert OccursAt(s, p, i + 1);
    }
    if exists i :: OccursAt(s, p, i) {
      var i :| OccursAt(s, p, i);
      assert i > 0;
      assert s[i..i + |p|] == s[1..][i - 1..i - 1 + |p|];
      assert OccursAt(s[1..], p, i - 1);
    }
  }

  /** `s.includes(p)`: `p` occurs somewhere in `s`; the empty string occurs in every string. */
  function Contains(s: string, p: string): (r: bool)
    ensures r <==> exists i :: OccursAt(s, p, i)
    decreases |s|
  {
    if |p| <= |s| && s[..|p|] == p then
      assert OccursAt(s, p, 0);
      true
    else if |s| == 0 then
      false
    else
      OccursShift(s, p);
      Contains(s[1..], p)
  }
}

=== FILE: wrappers.dfy ===
/** Failure-compatible wrappers shared by the whole model. */
module Wrappers {

  /** A value that may be absent: JavaScript `null`/`undefined`, or a Java `null` reference. */
  datatype Option<+T> = None | Some(value: T) {
    function GetOr(default: T): T {
      match this
      case Some(v) => v
      case None => default
    }
  }

  /** The outcome of an operation that can fail with an error of type `E`. */
  datatype Result<+T, +E> = Success(value: T) | Failure(error: E) {
    predicate IsFailure() {
      Failure?
    }

    function PropagateFailure<U>(): Result<U, E>
      requires Failure?
    {
      Failure(error)
    }

    function Extract(): T
      requires Success?
    {
      value
    }
  }
}
